=== FILE: README.md ===
# echo-middleware logging core, modelled in Dafny

This project models the logging middleware of the Go package
`echomiddleware`, which is written for the Echo web framework. It covers
three pieces:

- **`ZapLogger`** reads and restores the request body. It tees the
  response into a capture buffer, runs the next handler and forwards that
  handler's error to `c.Error`. It then builds 21 zap fields, skips a
  healthy `/healthz`, and logs one entry at a level set by the status. When
  a collection is configured it also hands the same fields, turned into a
  generic document by `zapFieldsToMap`, to the store.
- **`OtelLoggerMiddleware`** resolves the request ID from the response
  and request headers, stores it under `request_id` in the Go context, and
  sets it as the `request.id` attribute of a valid span.
- **`LoggerWithContext`** works out the request ID and the trace and span
  IDs, and stores them, together with a logger that carries them, in the
  Echo context and in the Go context. Eight accessors read them back, each
  with a safe fallback.
- **`BodyDump`** logs one sanitised record of an exchange, except in
  production and on the health check.

The model is functional:

- A handler is a function from an exchange (`Http.Exchange`) to an outcome.
  The outcome holds the handler's effect on the response (status, headers,
  chunks written) and the error it returns.
- A middleware run is a record. It holds the contexts the next handler was
  called with, the errors forwarded to `c.Error`, the log entries in order,
  the documents inserted, and the final response. "Calls `next` exactly
  once" is therefore a statement about a list.
- The request body is a stream with a read cursor and an optional reader
  error. The error is reported once the bytes run out.
- The response writer is either the client connection or a tee
  (`io.MultiWriter`) around another writer.

Modules, one per file:

- `Common`: errors, options, results, bytes, Go's `int64` and `string(b)`.
- `Streams`: the body reader, `io.ReadAll`, and the tee writer.
- `Http`: the request, response, Echo context and handler effects.
- `LoggerContext`: `logger_context.go`.
- `ZapFields`: zap fields and `zapFieldsToMap`.
- `EchoZap`: the rest of `echo_zap.go`.
- `BodyDump`: `body_dump.go` and `model.go`.

## Model

| member | source | states |
|---|---|---|
| Common.AsString | echo_zap.go:94 | `string(b)` keeps the length of the byte slice, and every character has the code of its byte. |
| Common.AsStringInjective | echo_zap.go:94 | Logging a body as a string loses nothing: equal logged strings come from equal byte slices. |
| Streams.Fresh | echo_zap.go:144 | The body put back by `readAndResetBody` is unconsumed, holds exactly the given bytes, and has no pending error. |
| Streams.Read | echo_zap.go:140 | One `Read` returns a chunk of at most `len(p)` bytes, and at least one when `len(p) > 0`, while unread bytes remain. The chunk followed by what is left is exactly the unread input. Once the bytes are exhausted it returns the reader's error if there is one, otherwise end of stream. |
| Streams.ReadAll | echo_zap.go:140-143 | `io.ReadAll` succeeds exactly when the reader has no error, and then returns all unread bytes and leaves the body consumed. On failure only the reader's error is kept: `io.ReadAll` would also return the bytes read so far, but `readAndResetBody` discards them (`return nil, err`), so the model drops them here. |
| Streams.Write | echo_zap.go:25-27 | The wrapped writer's `Write` reports `len(b)`. Every byte reaches the client, and a tee also appends the bytes to its buffer. |
| Streams.WriteAll | echo_zap.go:51-57 | After a series of writes the client has received their concatenation, and a tee's buffer has grown by the same bytes. |
| Streams.TeeIsTransparent | echo_zap.go:51-57 | Installing the tee changes nothing the client receives, and the capture buffer ends up holding exactly the bytes written. |
| LoggerContext.GetLogger | logger_context.go:104-110 | The Echo-context logger when `"logger"` holds a sugared logger, otherwise the global logger. |
| LoggerContext.GetLoggerFromContext | logger_context.go:114-120 | The Go-context logger when `"logger"` holds a sugared logger, otherwise the global logger. |
| LoggerContext.GetTraceID | logger_context.go:123-128 | The string under `"trace_id"` in the Echo context, otherwise `""` (key absent or a value of another type). |
| LoggerContext.GetTraceIDFromContext | logger_context.go:131-136 | The string under `"trace_id"` in the Go context, otherwise `""`. |
| LoggerContext.GetSpanID | logger_context.go:139-144 | The string under `"span_id"` in the Echo context, otherwise `""`. |
| LoggerContext.GetSpanIDFromContext | logger_context.go:147-152 | The string under `"span_id"` in the Go context, otherwise `""`. |
| LoggerContext.GetRequestID | logger_context.go:155-160 | The string under `"request_id"` in the Echo context, otherwise `""`. |
| LoggerContext.GetRequestIDFromContext | logger_context.go:163-168 | The string under `"request_id"` in the Go context, otherwise `""`. |
| LoggerContext.ResolveRequestID | logger_context.go:33-36 | The request ID is empty exactly when both `X-Request-ID` headers are empty. It is always one of the two headers, and the response header wins when it is set. |
| LoggerContext.TraceAndSpanIDs | logger_context.go:61-66 | A valid span context yields its rendered trace and span IDs; an invalid one yields two empty strings. |
| LoggerContext.OtelLoggerMiddleware | logger_context.go:26-50 | `next` runs exactly once and its error is returned. The `request.id` attribute is set only on a valid span and carries the resolved ID. The Go context gains `"request_id"` holding that ID as a string, every other value and the span stay, and the rest of the exchange is unchanged. |
| LoggerContext.ContextLogger | logger_context.go:76-80 | The derived logger keeps the global logger's name and fields, and appends the trace, span and request ID pairs in that order. |
| LoggerContext.Bound | logger_context.go:83-92 | Binding adds exactly the four keys, stores the logger and the three IDs under them, and keeps every other key's value. |
| LoggerContext.Bind | logger_context.go:58-95 | In the bound context, the Echo-context and Go-context accessors agree and return the resolved IDs and the derived logger. Both stores gain exactly the four keys, holding the three IDs as strings and the logger as a sugared logger, and nothing else in the exchange changes. |
| LoggerContext.LoggerWithContext | logger_context.go:54-100 | `next` runs exactly once, on the bound context; its error is returned unchanged, and no span attribute is set. |
| LoggerContext.BoundIDsFollowSpanValidity | logger_context.go:61-92 | After binding, both accessor families read `""` for trace and span without a valid span, and the span's own IDs with one. |
| LoggerContext.ChainedRequestIDsAgree | logger_context.go:33-73 | Chained, `OtelLoggerMiddleware` and `LoggerWithContext` store the same request ID, and the trace ID bound is the span's. |
| ZapFields.Convert | echo_zap.go:159-176 | The type tag alone picks the document value. Strings and untyped fields give their string, and times give the RFC 3339 rendering of the integer payload. All integer widths and durations give the integer, both float widths give `float64` of the integer payload, bools give `payload != 0`, and reflected fields give their interface value. |
| ZapFields.FieldsToMap | echo_zap.go:156-179 | The document's keys are exactly the fields' keys, and each key holds the translation of the last field with that key. |
| ZapFields.DistinctKeysAllKept | echo_zap.go:157-177 | When keys are distinct no field is lost: every field is found under its own key. |
| ZapFields.ConstructorsRoundTrip | echo_zap.go:160-173 | A value logged through `zap.String`, `Int64`, `Bool`, `Duration`, `Float64`, `Time` or `Reflect` comes back out of the translation as given (a float as its raw payload, a time as its rendering). |
| ZapFields.CoversAllTypes | echo_zap_test.go:269-292 | The all-types case. The string, the signed and unsigned integers, the float's bit pattern as a number, the bool, the time, the duration, the reflected value and the untyped fallback are each found under their keys. |
| EchoZap.Classify | echo_zap.go:105-115 | The status bands are exclusive and complete: 500 and up is an error "Server error", 400–499 a warning "Client error", 300–399 info "Redirection", and everything below 300 info "Success". |
| EchoZap.ClassifyMonotone | echo_zap.go:105-115 | A higher status is never logged at a lower level. |
| EchoZap.ClassifyIsFirstMatch | echo_zap.go:105-115 | The switch equals a first-match scan of the band table from the highest threshold down. |
| EchoZap.ClassifyExamples | echo_zap_test.go:175-205 | The statuses the tests use (307, 404, 500) and every band boundary land in the expected band. |
| EchoZap.ReadAndResetBody | echo_zap.go:139-146 | Succeeds exactly when the reader has no error, and otherwise returns that error. On success it returns all unread bytes. The restored request differs only in its body, which reads back to the same bytes. |
| EchoZap.LogRequestID | echo_zap.go:66-69 | The request's `X-Request-ID` when it is set, otherwise the response's. |
| EchoZap.RequestIDRulesDiffer | echo_zap.go:66-69 | When both headers are set, `ZapLogger` logs the request's ID, while the `logger_context.go` middlewares use the response's. |
| EchoZap.LeadingPayloads | echo_zap.go:78-84 | `status` and `timestamp` are integers (final status, Unix seconds); latency, request ID, trace ID, span ID and time are logged as given. |
| EchoZap.RequestPayloads | echo_zap.go:75-93 | Method, URI, host, real IP, path and query string are logged as read; header, form and route parameters as their renderings. |
| EchoZap.TrailingPayloads | echo_zap.go:94-98 | The request body and the captured response as strings of their bytes, the `User-Agent` and `Referer` request headers, and the protocol. |
| EchoZap.Payloads | echo_zap.go:77-99 | One value per key, in key order, and each one pinned: `status` the final status and `timestamp` the Unix time as integers; `latency`, `time`, the three IDs, method, URI, host, real IP, path, query, the header/form/parameter renderings, `User-Agent`, `Referer`, protocol, request body and captured response as strings of exactly those inputs. |
| EchoZap.BuildFields | echo_zap.go:77-99 | There are exactly 21 fields in key order, and each is the `Payloads` value at its position under its key: an `Int64` field for `status` and `timestamp`, a string field for every other key. |
| EchoZap.LogKeysDistinct | echo_zap.go:77-99 | No two logged fields share a key. |
| EchoZap.LogKeysDocument | echo_zap.go:117-119 | The document of the logged fields has exactly the 21 keys, each holding the translation of its field. |
| EchoZap.KeyedDocument | echo_zap.go:117-119 | For any 21 fields keyed by the log keys, the document has exactly those keys, the status as an integer, and the IDs and both bodies as text. |
| EchoZap.BuildFieldsDocument | echo_zap.go:117-119 | The persisted document holds the status as an integer, and the request ID, trace ID, span ID, request body and response as the logged strings. |
| EchoZap.Recovery | echo_zap.go:59-62 | `c.Error` runs exactly when the handler returned an error, and the error handler then receives that same error and the context whose response is as the handler left it. |
| EchoZap.Handle | echo_zap.go:59-64 | The handler's error, and only that, is forwarded to `c.Error`. The final status is the error handler's if it set one, else the handler's, else the one the response had. The final headers are the handler's set over the existing ones, then the error handler's over those. Every byte written by the handler and the error handler reaches the client, and a tee captures the same bytes. |
| EchoZap.Emit | echo_zap.go:108-128 | The entry is logged first. Without a collection nothing is inserted. With one, the fields' document is inserted once, and a failed insert adds exactly one "Error while inserting log to mongo" entry carrying the error. |
| EchoZap.Observe | echo_zap.go:59-128 | The middleware returns nil after calling `next` once. The response ends with the status and headers the handler, then the error handler, set. Nothing is logged or inserted exactly for a 200 on `/healthz`. Otherwise the entry has the status's level and message and the fields built from the final response and the captured bytes, followed by persistence. |
| EchoZap.ZapLogger | echo_zap.go:28-133 | An upgrade request goes straight to `next`, with nothing logged or forwarded. A body read error returns that error before `next` runs. Otherwise `next` runs once with a restored body and a fresh tee, the response carries the status and headers the handler and then the error handler set, the client receives every byte, and the skip, level, fields and persistence rules hold. |
| EchoZap.LoggedDocument | echo_zap.go:101-127 | With a collection and a body that reads cleanly, nothing is logged exactly on a healthy `/healthz`. Otherwise exactly one document is inserted, with the 21 logged keys. Its status, IDs and request body are the logged values, and its response is the bytes the handler and the error handler wrote. |
| EchoZap.HealthyHealthCheckUnlogged | echo_zap_test.go:159-173 | On `/healthz`, a handler that answers 200 without an error gives no log entry and no document. |
| EchoZap.HandlerStatusClassified | echo_zap_test.go:175-205 | A handler that succeeds with a status outside the health-check skip gives a first entry with the level and message of that status's band; without a collection it is the only entry (a failed insert adds a second). |
| EchoZap.ResponseRequestIDLogged | echo_zap_test.go:95-111 | Without a request `X-Request-ID`, and when the handler returns no error, the logged `request_id` is the one the handler set on the response. |
| EchoZap.FailedInsertLogsTwice | echo_zap_test.go:224-267 | A 500 handler and a failing insert give two entries, "Server error" and then the insert failure, and one document whose status is 500, whose response is the body written, and whose body is the request body as read. |
| BodyDump.Sanitise | body_dump.go:16-24 | The three `ReplaceAll` passes leave no newline, carriage return or tab, and equal one pass that drops all three. |
| BodyDump.SanitiseIsOnePass | body_dump.go:17-19 | The `\n`, `\r`, `\t` passes in sequence equal one removal of the set. |
| BodyDump.SanitiseIdempotent | body_dump.go:16-24 | Sanitising a sanitised body changes nothing. |
| BodyDump.SanitiseLength | body_dump.go:16-24 | The sanitised length is the original minus the number of newlines, carriage returns and tabs. |
| BodyDump.SanitiseKeepsOthers | body_dump.go:16-24 | Every other character keeps its number of occurrences, and the control characters occur zero times. |
| BodyDump.SanitiseRequestExample | body_dump_test.go:39-56 | `{\n\t"foo":"bar"\r\n}` sanitises to `{"foo":"bar"}`. |
| BodyDump.SanitiseResponseExample | body_dump_test.go:40-57 | `first\nsecond\t` sanitises to `firstsecond`. |
| BodyDump.BodyDump | body_dump.go:13-39 | A record is logged exactly when the environment is not `production` and the path is not `/healthz`, and then only one. Host, path, method, remote address, header rendering and status are copied, and both bodies are their byte strings with every `\n`, `\r` and `\t` removed. |

## Left out

- The MongoDB insert runs in a goroutine with a 5-second timeout. The model performs it sequentially, once, after the main entry, with the outcome supplied by a function parameter. Interleaving with later requests is not modelled.
- The time inputs (`time.Now`, `time.Since`, the RFC 3339 rendering) are parameters: the `Clock` record and `Render.rfc3339`.
- `fmt.Sprintf("%v")` of headers and route parameters and `Form.Encode` are uninterpreted functions in `Http.Render`.
- zap's encoder and the OpenTelemetry span internals are not modelled. Hex rendering of trace and span IDs arrives as strings in `SpanContext`.
- `json.Marshal` of the body-dump record is not modelled. `BodyDump` returns the record it would log.
- `viper.GetString("ENVIRONMENT")` and `zap.S()` are parameters (`environment`, `global`).
- `websocket.IsWebSocketUpgrade` is a flag on the request. The header checks it performs are not modelled.
- Header keys are assumed to be in canonical MIME form, so `X-Request-ID` is looked up as `X-Request-Id`. Canonicalisation itself is not modelled.
- Write errors of the client connection and of `io.MultiWriter` are not modelled. Every write succeeds in full.
- Echo's response-commit rules (a second `WriteHeader` being ignored, the default 200) are not modelled. A later status simply replaces an earlier one.
- A handler cannot replace the request or response object in this model. In the source, `req` is captured before `next` while the span and the trace ID are read from `c.Request()` afterwards. The model reads both from the request `next` was given.
- `ZapFields.Convert`: `float64(field.Integer)` is kept as the raw integer payload (`Float(raw)`). The floating-point value is not computed, and neither is the fact that for `zap.Float64` this payload is the IEEE 754 bit pattern rather than the number. The repository's test pins exactly this behaviour.
- `mongoInsertFunc`'s own nil-collection check is unreachable from `ZapLogger`, which only inserts when a collection is set. It is not modelled.
- The behaviour of `GetSpanFromContext` is the span stored in the Go context; it is folded into `GoContext.span`.
- For a WebSocket upgrade `ZapLogger` returns `next(c)` without logging; the second and third upgrade checks are always true after the early return, so they are not separate branches here.
- In-place mutation by the handler is not modelled. The source reads `req.Header`, `req.Form.Encode()`, `c.Path()`, `c.QueryString()` and `c.ParamValues()` after `next` returns, and the handler can change them in place. In particular `req.Form` stays nil until the handler calls `FormValue` or `ParseForm`, so the logged `form` normally reflects the handler's parse. The model's `Effect` cannot change the request or the Echo context, so all of these are read from the exchange `next` was given.

=== FILE: body_dump.dfy ===
/** The standalone `BodyDump` helper: outside production and off the health
 *  check, log one record of the exchange with newline, carriage-return and
 *  tab characters removed from both bodies.
 */
module BodyDump {
  import opened Common
  import opened Http

  /** `BodyDumpModel`; `verb` is its `Method` field. */
  datatype BodyDumpModel = BodyDumpModel(
    host: string,
    path: string,
    verb: string,
    remoteAddress: string,
    header: string,
    status: Int64,
    request: string,
    response: string)

  /** The `ENVIRONMENT` value that silences the dump. */
  const Production := "production"

  /** The characters the dump removes. */
  const ControlChars: set<char> := {'\n', '\r', '\t'}

  /** `s` with every character of `drop` removed and the others kept in
   *  order; with a one-character `drop` this is `strings.ReplaceAll(s, ch, "")`. */
  function Without(s: string, drop: set<char>): string
    decreases |s|
  {
    if s == [] then []
    else (if s[0] in drop then [] else [s[0]]) + Without(s[1..], drop)
  }

  /** Nothing of `drop` survives removal, and nothing is added. */
  lemma {:induction false} WithoutExcludes(s: string, drop: set<char>)
    ensures |Without(s, drop)| <= |s|
    ensures forall i :: 0 <= i < |Without(s, drop)| ==> Without(s, drop)[i] !in drop
    decreases |s|
  {
    if s != [] {
      WithoutExcludes(s[1..], drop);
    }
  }

  /** The sanitiser as written: three `ReplaceAll` passes, for `\n`, `\r`
   *  and `\t` in that order. */
  function Sanitise(s: string): (r: string)
    ensures forall i :: 0 <= i < |r| ==> r[i] !in ControlChars
    ensures r == Without(s, ControlChars)
  {
    SanitiseIsOnePass(s);
    WithoutExcludes(s, ControlChars);
    Without(Without(Without(s, {'\n'}), {'\r'}), {'\t'})
  }

  /** Two removal passes are one pass removing both sets. */
  lemma {:induction false} WithoutTwice(s: string, a: set<char>, b: set<char>)
    ensures Without(Without(s, a), b) == Without(s, a + b)
    decreases |s|
  {
    if s != [] {
      WithoutTwice(s[1..], a, b);
      WithoutAppend(if s[0] in a then [] else [s[0]], Without(s[1..], a), b);
      assert Without(if s[0] in a then [] else [s[0]], b) == (if s[0] in a + b then [] else [s[0]]) by {
        if s[0] !in a {
          assert [s[0]][1..] == [];
        }
      }
    }
  }

  /** Removal distributes over concatenation. */
  lemma {:induction false} WithoutAppend(x: string, y: string, drop: set<char>)
    ensures Without(x + y, drop) == Without(x, drop) + Without(y, drop)
    decreases |x|
  {
    if x == [] {
      assert x + y == y;
    } else {
      assert (x + y)[0] == x[0];
      assert (x + y)[1..] == x[1..] + y;
      WithoutAppend(x[1..], y, drop);
    }
  }

  /** The three passes remove exactly the control characters in one go. */
  lemma SanitiseIsOnePass(s: string)
    ensures Without(Without(Without(s, {'\n'}), {'\r'}), {'\t'}) == Without(s, ControlChars)
  {
    WithoutTwice(s, {'\n'}, {'\r'});
    WithoutTwice(Without(s, {'\n'}), {'\r'}, {'\t'});
    WithoutTwice(s, {'\n'} + {'\r'}, {'\t'});
    assert {'\n'} + {'\r'} + {'\t'} == ControlChars;
  }

  /** Removal keeps every other character as often as it occurs, and no
   *  character of `drop`. */
  lemma {:induction false} WithoutCounts(s: string, drop: set<char>, ch: char)
    ensures multiset(Without(s, drop))[ch] == if ch in drop then 0 else multiset(s)[ch]
    decreases |s|
  {
    if s != [] {
      WithoutCounts(s[1..], drop, ch);
      assert s == [s[0]] + s[1..];
      assert multiset(s) == multiset([s[0]]) + multiset(s[1..]);
      var head := if s[0] in drop then [] else [s[0]];
      assert multiset(Without(s, drop)) == multiset(head) + multiset(Without(s[1..], drop));
    }
  }

  /** A string with nothing to remove is left as it is. */
  lemma {:induction false} WithoutNothing(s: string, drop: set<char>)
    requires forall i :: 0 <= i < |s| ==> s[i] !in drop
    ensures Without(s, drop) == s
    decreases |s|
  {
    if s != [] {
      WithoutNothing(s[1..], drop);
      assert s == [s[0]] + s[1..];
    }
  }

  /** Sanitising twice is sanitising once. */
  lemma SanitiseIdempotent(s: string)
    ensures Sanitise(Sanitise(s)) == Sanitise(s)
  {
    WithoutNothing(Sanitise(s), ControlChars);
  }

  /** Removing one character shortens the string by its number of
   *  occurrences. */
  lemma {:induction false} WithoutOneLength(s: string, ch: char)
    ensures |Without(s, {ch})| == |s| - multiset(s)[ch]
    decreases |s|
  {
    if s != [] {
      WithoutOneLength(s[1..], ch);
      assert s == [s[0]] + s[1..];
      assert multiset(s)[ch] == multiset([s[0]])[ch] + multiset(s[1..])[ch];
    }
  }

  /** The sanitised length is the original length minus the number of
   *  newlines, carriage returns and tabs. */
  lemma SanitiseLength(s: string)
    ensures |Sanitise(s)| == |s| - multiset(s)['\n'] - multiset(s)['\r'] - multiset(s)['\t']
  {
    var s1 := Without(s, {'\n'});
    var s2 := Without(s1, {'\r'});
    WithoutOneLength(s, '\n');
    WithoutOneLength(s1, '\r');
    WithoutOneLength(s2, '\t');
    WithoutCounts(s, {'\n'}, '\r');
    WithoutCounts(s, {'\n'}, '\t');
    WithoutCounts(s1, {'\r'}, '\t');
    SanitiseIsOnePass(s);
  }

  /** Every other character keeps its number of occurrences. */
  lemma SanitiseKeepsOthers(s: string, ch: char)
    ensures multiset(Sanitise(s))[ch] == if ch in ControlChars then 0 else multiset(s)[ch]
  {
    WithoutCounts(s, ControlChars, ch);
  }

  /** Removal from kept text `x`, removed text `y`, and a rest `z`. */
  lemma WithoutAround(x: string, y: string, z: string, drop: set<char>)
    requires forall i :: 0 <= i < |x| ==> x[i] !in drop
    requires forall i :: 0 <= i < |y| ==> y[i] in drop
    ensures Without(x + y + z, drop) == x + Without(z, drop)
  {
    calc {
      Without(x + y + z, drop);
      { WithoutAppend(x + y, z, drop); }
      Without(x + y, drop) + Without(z, drop);
      { WithoutAppend(x, y, drop); }
      Without(x, drop) + Without(y, drop) + Without(z, drop);
      { WithoutNothing(x, drop); WithoutOnlyDropped(y, drop); }
      x + [] + Without(z, drop);
    }
  }

  /** A string made only of characters to remove disappears. */
  lemma {:induction false} WithoutOnlyDropped(s: string, drop: set<char>)
    requires forall i :: 0 <= i < |s| ==> s[i] in drop
    ensures Without(s, drop) == []
    decreases |s|
  {
    if s != [] {
      WithoutOnlyDropped(s[1..], drop);
    }
  }

  /** The request body of the body-dump test as its runs of kept and
   *  removed characters. Literals are compared position by position here,
   *  which the solver does far faster than comparing them whole. */
  lemma RequestBodyRuns()
    ensures "{\n\t\"foo\":\"bar\"\r\n}" == "{" + "\n\t" + ("\"foo\":\"bar\"" + "\r\n" + ("}" + [] + []))
    ensures "{" + "\"foo\":\"bar\"" + "}" == "{\"foo\":\"bar\"}"
  {
    var a, b := "{\n\t\"foo\":\"bar\"\r\n}", "{" + "\n\t" + ("\"foo\":\"bar\"" + "\r\n" + ("}" + [] + []));
    assert |a| == |b|;
    forall i | 0 <= i < |a| ensures a[i] == b[i] {}
    var x, y := "{" + "\"foo\":\"bar\"" + "}", "{\"foo\":\"bar\"}";
    assert |x| == |y|;
    forall i | 0 <= i < |x| ensures x[i] == y[i] {}
  }

  /** The sanitiser on the request body of the body-dump test. */
  lemma SanitiseRequestExample(s: string)
    requires s == "{\n\t\"foo\":\"bar\"\r\n}"
    ensures Sanitise(s) == "{\"foo\":\"bar\"}"
  {
    var open, pair, close := "{", "\"foo\":\"bar\"", "}";
    var tail := close + [] + [];
    RequestBodyRuns();
    WithoutAround(open, "\n\t", pair + "\r\n" + tail, ControlChars);
    WithoutAround(pair, "\r\n", tail, ControlChars);
    WithoutAround(close, [], [], ControlChars);
    assert Without([], ControlChars) == [];
  }

  /** The sanitiser on the response body of the body-dump test. */
  lemma SanitiseResponseExample(s: string)
    requires s == "first\nsecond\t"
    ensures Sanitise(s) == "firstsecond"
  {
    var first, second := "first", "second";
    assert s == first + "\n" + (second + "\t" + []);
    WithoutAround(first, "\n", second + "\t" + [], ControlChars);
    WithoutAround(second, "\t", [], ControlChars);
  }

  /** `BodyDump(c, reqBody, resBody)` with the `ENVIRONMENT` setting passed in:
   *  the records logged (each as one info line `Body dump: <JSON>`). */
  function BodyDump(environment: string, render: Render, c: Exchange, reqBody: Bytes, resBody: Bytes): (lines: seq<BodyDumpModel>)
    ensures lines == [] <==> environment == Production || c.path == HealthzPath
    ensures |lines| <= 1
    ensures lines != [] ==>
      && lines[0].host == c.request.host
      && lines[0].path == c.path
      && lines[0].verb == c.request.verb
      && lines[0].remoteAddress == c.request.remoteAddr
      && lines[0].header == render.header(c.request.header)
      && lines[0].status == c.response.status
      && lines[0].request == Without(AsString(reqBody), ControlChars)
      && lines[0].response == Without(AsString(resBody), ControlChars)
  {
    if environment != Production && c.path != HealthzPath then
      [BodyDumpModel(
        c.request.host,
        c.path,
        c.request.verb,
        c.request.remoteAddr,
        render.header(c.request.header),
        c.response.status,
        Sanitise(AsString(reqBody)),
        Sanitise(AsString(resBody)))]
    else
      []
  }
}

=== FILE: common.dfy ===
/** Values shared by every part of the middleware model: Go errors, optional
 *  values, byte buffers, Go's 64-bit integers and the byte-to-string
 *  conversion Go performs with `string(b)`.
 */
module Common {

  /** A Go `error`, identified by its message. */
  datatype Error = Error(message: string)

  datatype Option<+T> = None | Some(value: T)

  /** A value or the Go error that replaced it. */
  datatype Result<+T> = Success(value: T) | Failure(error: Error)

  type Bytes = seq<bv8>

  /** Go's `int64` (and `int` on 64-bit platforms). */
  type Int64 = x: int | -0x8000_0000_0000_0000 <= x < 0x8000_0000_0000_0000

  /** The optional error as a list of zero or one errors. */
  function ErrorList(e: Option<Error>): (es: seq<Error>)
    ensures e.None? <==> es == []
    ensures e.Some? ==> es == [e.value]
  {
    match e
    case None => []
    case Some(err) => [err]
  }

  /** The bytes of a list of chunks, written one after another. */
  function Flatten(chunks: seq<Bytes>): Bytes
  {
    if chunks == [] then [] else chunks[0] + Flatten(chunks[1..])
  }

  /** Go's `string(b)`: a Go string is a byte string, so every byte becomes
   *  the character with the same code and nothing is decoded or dropped. */
  function AsString(b: Bytes): (s: string)
    ensures |s| == |b|
    ensures forall i :: 0 <= i < |b| ==> s[i] as int == b[i] as int
  {
    seq(|b|, i requires 0 <= i < |b| => (b[i] as int) as char)
  }

  /** The conversion loses nothing: equal strings come from equal bytes. */
  lemma AsStringInjective(a: Bytes, b: Bytes)
    requires AsString(a) == AsString(b)
    ensures a == b
  {
    assert |a| == |b|;
    forall i | 0 <= i < |a|
      ensures a[i] == b[i]
    {
      assert AsString(a)[i] == AsString(b)[i];
      assert a[i] as int == b[i] as int;
    }
  }

  /** Concatenation regroups freely. */
  lemma AppendAssociates<T>(a: seq<T>, b: seq<T>, c: seq<T>)
    ensures (a + b) + c == a + (b + c)
  {
  }
}

=== FILE: echo_zap.dfy ===
/** The `ZapLogger` middleware: read and restore the request body, tee the
 *  response into a capture buffer, run the handler, assemble the log
 *  fields, skip healthy health checks, classify the status into a level and
 *  message, log one entry, and hand the same fields to the store when one
 *  is configured.
 */
module EchoZap {
  import opened Common
  import opened Streams
  import opened Http
  import opened ZapFields
  import LoggerContext

  /** The zap levels the middleware logs at. */
  datatype Level = InfoLevel | WarnLevel | ErrorLevel

  /** A log entry as the logger receives it. */
  datatype Entry = Entry(level: Level, message: string, fields: seq<Field>)

  const InsertFailedMessage := "Error while inserting log to mongo"

  /** The status switch: level and message of a response status. Bands are
   *  tried from the highest threshold down and the first match wins, so
   *  each band includes its lower bound; everything below 300 (1xx and any
   *  value under 100 included) is a success. */
  function Classify(status: int): (r: (Level, string))
    ensures status >= 500 <==> r == (ErrorLevel, "Server error")
    ensures 400 <= status < 500 <==> r == (WarnLevel, "Client error")
    ensures 300 <= status < 400 <==> r == (InfoLevel, "Redirection")
    ensures status < 300 <==> r == (InfoLevel, "Success")
  {
    if status >= 500 then (ErrorLevel, "Server error")
    else if status >= 400 then (WarnLevel, "Client error")
    else if status >= 300 then (InfoLevel, "Redirection")
    else (InfoLevel, "Success")
  }

  /** Severity order of the levels. */
  function Rank(l: Level): nat
  {
    match l
    case InfoLevel => 0
    case WarnLevel => 1
    case ErrorLevel => 2
  }

  /** A higher status is never logged at a lower level. */
  lemma ClassifyMonotone(a: int, b: int)
    requires a <= b
    ensures Rank(Classify(a).0) <= Rank(Classify(b).0)
  {
  }

  /** The status bands as a table of (lower bound, level, message), highest
   *  threshold first; a status below every bound is a success. */
  const Bands: seq<(int, Level, string)> :=
    [(500, ErrorLevel, "Server error"), (400, WarnLevel, "Client error"), (300, InfoLevel, "Redirection")]

  /** The first band of the table whose lower bound the status reaches. */
  function FirstMatch(bands: seq<(int, Level, string)>, status: int): (Level, string)
  {
    if bands == [] then (InfoLevel, "Success")
    else if status >= bands[0].0 then (bands[0].1, bands[0].2)
    else FirstMatch(bands[1..], status)
  }

  /** The switch is the first-match scan of the band table. */
  lemma ClassifyIsFirstMatch(status: int)
    ensures Classify(status) == FirstMatch(Bands, status)
  {
    var redirect := [(300, InfoLevel, "Redirection")];
    var client := [(400, WarnLevel, "Client error")] + redirect;
    assert Bands == [(500, ErrorLevel, "Server error")] + client;
    assert Bands[1..] == client && client[1..] == redirect && redirect[1..] == [];
    assert FirstMatch([], status) == (InfoLevel, "Success");
    assert FirstMatch(redirect, status) == if status >= 300 then (InfoLevel, "Redirection") else (InfoLevel, "Success");
    assert FirstMatch(client, status) == if status >= 400 then (WarnLevel, "Client error") else FirstMatch(redirect, status);
    assert FirstMatch(Bands, status) == if status >= 500 then (ErrorLevel, "Server error") else FirstMatch(client, status);
  }

  /** The status values the tests pin, and the band boundaries. */
  lemma ClassifyExamples()
    ensures Classify(101) == (InfoLevel, "Success") && Classify(99) == (InfoLevel, "Success")
    ensures Classify(200) == (InfoLevel, "Success") && Classify(201) == (InfoLevel, "Success")
    ensures Classify(299) == (InfoLevel, "Success") && Classify(300) == (InfoLevel, "Redirection")
    ensures Classify(307) == (InfoLevel, "Redirection") && Classify(399) == (InfoLevel, "Redirection")
    ensures Classify(400) == (WarnLevel, "Client error") && Classify(404) == (WarnLevel, "Client error")
    ensures Classify(499) == (WarnLevel, "Client error") && Classify(500) == (ErrorLevel, "Server error")
    ensures Classify(599) == (ErrorLevel, "Server error")
  {
  }

  /** The health-check rule: a `/healthz` route answered with exactly 200 is
   *  neither logged nor persisted. */
  predicate Skipped(path: string, status: int)
  {
    path == HealthzPath && status == 200
  }

  /** `readAndResetBody`: read the whole body, then put back a fresh reader
   *  over the same bytes. On failure the reader's error is returned. */
  function ReadAndResetBody(req: Request): (r: Result<(Bytes, Request)>)
    ensures r.Success? <==> req.body.fault.None?
    ensures r.Failure? ==> r.error == req.body.fault.value
    ensures r.Success? ==> r.value.0 == Unread(req.body)
    ensures r.Success? ==> r.value.1 == req.(body := r.value.1.body)
    ensures r.Success? ==> ReadAll(r.value.1.body).Success? && ReadAll(r.value.1.body).value.0 == r.value.0
  {
    match ReadAll(req.body)
    case Failure(e) => Failure(e)
    case Success((bytes, _)) => Success((bytes, req.(body := Fresh(bytes))))
  }

  /** The request ID `ZapLogger` logs: the request's `X-Request-ID` if
   *  non-empty, else the response's. */
  function LogRequestID(requestHeader: Header, responseHeader: Header): (id: string)
    ensures HeaderGet(requestHeader, XRequestID) != "" ==> id == HeaderGet(requestHeader, XRequestID)
    ensures HeaderGet(requestHeader, XRequestID) == "" ==> id == HeaderGet(responseHeader, XRequestID)
  {
    var fromRequest := HeaderGet(requestHeader, XRequestID);
    if fromRequest == "" then HeaderGet(responseHeader, XRequestID) else fromRequest
  }

  /** The two request-ID rules of the repository disagree whenever both
   *  headers carry different non-empty IDs: `ZapLogger` takes the
   *  request's, `LoggerWithContext` and `OtelLoggerMiddleware` the
   *  response's. */
  lemma RequestIDRulesDiffer(c: Exchange)
    requires HeaderGet(c.request.header, XRequestID) != ""
    requires HeaderGet(c.response.header, XRequestID) != ""
    ensures LogRequestID(c.request.header, c.response.header) == HeaderGet(c.request.header, XRequestID)
    ensures LoggerContext.ResolveRequestID(c) == HeaderGet(c.response.header, XRequestID)
  {
  }

  /** Wall-clock inputs: the rendered latency, the RFC 3339 current time and
   *  the current Unix time in seconds. */
  datatype Clock = Clock(latency: string, now: string, unix: Int64)

  /** The keys of the logged fields, in order. */
  const LogKeys: seq<string> := [
    StatusKey, "latency", LoggerContext.RequestIDKey, LoggerContext.TraceIDKey, LoggerContext.SpanIDKey,
    "time", "timestamp", "method", "uri", "host", "remote_ip", "header", "path", "query", "form", "param",
    BodyKey, "user_agent", "referer", "request_proto", ResponseKey]

  const StatusKey := "status"
  const BodyKey := "body"
  const ResponseKey := "response"

  /** A logged value: `zap.Int`/`zap.Int64` or `zap.String`. */
  datatype Payload = IntValue(n: Int64) | StringValue(s: string)

  /** The field `key` with the given payload. */
  function Attach(key: string, p: Payload): (f: Field)
    ensures f.key == key
    ensures p.IntValue? ==> f == Int64Field(key, p.n)
    ensures p.StringValue? ==> f == StringField(key, p.s)
  {
    match p
    case IntValue(n) => Int64Field(key, n)
    case StringValue(s) => StringField(key, s)
  }

  /** The values that identify and time the request: `status` to
   *  `timestamp`. */
  function LeadingPayloads(res: Response, requestID: string, traceID: string, spanID: string, clock: Clock): (p: seq<Payload>)
    ensures |p| == 7
    ensures p[0] == IntValue(res.status) && p[1] == StringValue(clock.latency)
    ensures p[2] == StringValue(requestID) && p[3] == StringValue(traceID) && p[4] == StringValue(spanID)
    ensures p[5] == StringValue(clock.now) && p[6] == IntValue(clock.unix)
  {
    [ IntValue(res.status), StringValue(clock.latency), StringValue(requestID), StringValue(traceID),
      StringValue(spanID), StringValue(clock.now), IntValue(clock.unix) ]
  }

  /** The values read from the request and the Echo context: `method` to
   *  `param`. */
  function RequestPayloads(c: Exchange, render: Render): (p: seq<Payload>)
    ensures |p| == 9
    ensures p[0] == StringValue(c.request.verb) && p[1] == StringValue(c.request.uri)
    ensures p[2] == StringValue(c.request.host) && p[3] == StringValue(c.realIP)
    ensures p[4] == StringValue(render.header(c.request.header))
    ensures p[5] == StringValue(c.path) && p[6] == StringValue(c.query)
    ensures p[7] == StringValue(render.form(c.request.form)) && p[8] == StringValue(render.params(c.params))
  {
    [ StringValue(c.request.verb), StringValue(c.request.uri), StringValue(c.request.host), StringValue(c.realIP),
      StringValue(render.header(c.request.header)), StringValue(c.path), StringValue(c.query),
      StringValue(render.form(c.request.form)), StringValue(render.params(c.params)) ]
  }

  /** The request body, two request headers, the protocol and the response
   *  body: `body` to `response`. */
  function TrailingPayloads(c: Exchange, body: Bytes, captured: Bytes): (p: seq<Payload>)
    ensures |p| == 5
    ensures p[0] == StringValue(AsString(body))
    ensures p[1] == StringValue(HeaderGet(c.request.header, UserAgentHeader))
    ensures p[2] == StringValue(HeaderGet(c.request.header, RefererHeader))
    ensures p[3] == StringValue(c.request.proto) && p[4] == StringValue(AsString(captured))
  {
    [ StringValue(AsString(body)), StringValue(HeaderGet(c.request.header, UserAgentHeader)),
      StringValue(HeaderGet(c.request.header, RefererHeader)), StringValue(c.request.proto),
      StringValue(AsString(captured)) ]
  }

  /** The logged values, in the order of `LogKeys`: the string values are
   *  taken unchanged from the request, the Echo context, the resolved
   *  identifiers, the clock and the two captured bodies; `status` and
   *  `timestamp` are integers. */
  function Payloads(
    c: Exchange, res: Response, requestID: string, traceID: string, spanID: string,
    clock: Clock, render: Render, body: Bytes, captured: Bytes): (p: seq<Payload>)
    ensures |p| == |LogKeys|
    ensures p[0] == IntValue(res.status) && p[1] == StringValue(clock.latency)
    ensures p[2] == StringValue(requestID) && p[3] == StringValue(traceID) && p[4] == StringValue(spanID)
    ensures p[5] == StringValue(clock.now) && p[6] == IntValue(clock.unix)
    ensures p[7] == StringValue(c.request.verb) && p[8] == StringValue(c.request.uri)
    ensures p[9] == StringValue(c.request.host) && p[10] == StringValue(c.realIP)
    ensures p[11] == StringValue(render.header(c.request.header))
    ensures p[12] == StringValue(c.path) && p[13] == StringValue(c.query)
    ensures p[14] == StringValue(render.form(c.request.form)) && p[15] == StringValue(render.params(c.params))
    ensures p[16] == StringValue(AsString(body))
    ensures p[17] == StringValue(HeaderGet(c.request.header, UserAgentHeader))
    ensures p[18] == StringValue(HeaderGet(c.request.header, RefererHeader))
    ensures p[19] == StringValue(c.request.proto) && p[20] == StringValue(AsString(captured))
  {
    LeadingPayloads(res, requestID, traceID, spanID, clock) + RequestPayloads(c, render) + TrailingPayloads(c, body, captured)
  }

  /** The log fields of a request: each value of `Payloads` under its key. */
  function BuildFields(
    c: Exchange, res: Response, requestID: string, traceID: string, spanID: string,
    clock: Clock, render: Render, body: Bytes, captured: Bytes): (fs: seq<Field>)
    ensures |fs| == |LogKeys|
    ensures forall i :: 0 <= i < |fs| ==> fs[i].key == LogKeys[i]
    ensures forall i :: 0 <= i < |fs| ==>
      fs[i] == Attach(LogKeys[i], Payloads(c, res, requestID, traceID, spanID, clock, render, body, captured)[i])
  {
    var payloads := Payloads(c, res, requestID, traceID, spanID, clock, render, body, captured);
    seq(|LogKeys|, i requires 0 <= i < |LogKeys| => Attach(LogKeys[i], payloads[i]))
  }

  /** No two logged fields share a key, so the document keeps every field. */
  lemma LogKeysDistinct(fs: seq<Field>)
    requires |fs| == |LogKeys|
    requires forall i :: 0 <= i < |fs| ==> fs[i].key == LogKeys[i]
    ensures DistinctKeys(fs)
  {
    forall i, j | 0 <= i < j < |fs| ensures fs[i].key != fs[j].key {
      assert LogKeys[i] != LogKeys[j];
    }
  }

  /** The framework side of a request: the next handler and the error
   *  handler `c.Error` forwards to. */
  datatype Framework = Framework(next: Handler, onError: ErrorHandler)

  /** Where the finished fields go: nowhere, or a collection whose insert
   *  reports an optional error. */
  datatype Persistence = NoCollection | Collection(insert: Document -> Option<Error>)

  /** What `c.Error` does after the handler: nothing when the handler
   *  succeeded, else the error handler's effect on the response as the
   *  handler left it. */
  function Recovery(fw: Framework, c: Exchange): (r: Option<Effect>)
    ensures r.Some? <==> fw.next(c).err.Some?
    ensures r.Some? ==>
      r.value == fw.onError(fw.next(c).err.value, c.(response := ApplyEffect(c.response, fw.next(c).effect)))
  {
    var out := fw.next(c);
    match out.err
    case None => None
    case Some(e) => Some(fw.onError(e, c.(response := ApplyEffect(c.response, out.effect))))
  }

  /** The bytes written to the response by the handler and, if it returned
   *  an error, by the error handler after it. */
  function HandlerWrites(fw: Framework, c: Exchange): Bytes
  {
    Flatten(fw.next(c).effect.writes) + match Recovery(fw, c) case None => [] case Some(e) => Flatten(e.writes)
  }

  /** The status the client ends up with: the error handler's if it set
   *  one, else the handler's if it set one, else the status the response
   *  already had. */
  function FinalStatus(fw: Framework, c: Exchange): Int64
  {
    var own := fw.next(c).effect.status;
    var recovered := Recovery(fw, c);
    if recovered.Some? && recovered.value.status.Some? then recovered.value.status.value
    else if own.Some? then own.value
    else c.response.status
  }

  /** The response headers the client ends up with: those the handler set
   *  over the ones already there, then those the error handler set over
   *  the result. */
  function FinalHeader(fw: Framework, c: Exchange): Header
  {
    var own := SetHeaders(c.response.header, fw.next(c).effect.headers);
    match Recovery(fw, c)
    case None => own
    case Some(e) => SetHeaders(own, e.headers)
  }

  /** Run the handler once and forward its error, if any, to `c.Error`: the
   *  response that results and the errors forwarded. Every byte written
   *  reaches the client, and a tee captures the same bytes. */
  function Handle(fw: Framework, c: Exchange): (r: (Response, seq<Error>))
    ensures r.1 == ErrorList(fw.next(c).err)
    ensures r.0.status == FinalStatus(fw, c)
    ensures r.0.header == FinalHeader(fw, c)
    ensures Delivered(r.0.writer) == Delivered(c.response.writer) + HandlerWrites(fw, c)
    ensures r.0.writer.Teed? <==> c.response.writer.Teed?
    ensures c.response.writer.Teed? ==> r.0.writer.captured == c.response.writer.captured + HandlerWrites(fw, c)
  {
    var res := ApplyEffect(c.response, fw.next(c).effect);
    match Recovery(fw, c)
    case None => (res, [])
    case Some(effect) =>
      var written := Flatten(fw.next(c).effect.writes);
      AppendAssociates(Delivered(c.response.writer), written, Flatten(effect.writes));
      // Both branches return the same pair; the split only places the
      // regrouping step the tee's buffer needs.
      if c.response.writer.Teed? then
        AppendAssociates(c.response.writer.captured, written, Flatten(effect.writes));
        (ApplyEffect(res, effect), [fw.next(c).err.value])
      else
        (ApplyEffect(res, effect), [fw.next(c).err.value])
  }

  /** What one pass through the middleware produced: its return value, the
   *  contexts `next` was called with, the errors passed to `c.Error`, the
   *  log entries in order, the documents handed to the store, and the
   *  response. */
  datatype Run = Run(
    result: Option<Error>,
    calls: seq<Exchange>,
    reported: seq<Error>,
    log: seq<Entry>,
    inserted: seq<Document>,
    response: Response)

  /** The entry logged for a failed insert. */
  function InsertFailed(e: Error): Entry
  {
    Entry(ErrorLevel, InsertFailedMessage, [ErrorField(e)])
  }

  /** Log the entry, then hand the same fields, as a document, to the store
   *  if one is configured; a failed insert adds one error entry. The store
   *  is reached sequentially here: one attempt, never retried. */
  function Emit(store: Persistence, rfc3339: Int64 -> string, entry: Entry): (r: (seq<Entry>, seq<Document>))
    ensures |r.0| >= 1 && r.0[0] == entry
    ensures store.NoCollection? ==> r == ([entry], [])
    ensures store.Collection? ==> r.1 == [FieldsToMap(entry.fields, rfc3339)]
    ensures store.Collection? && store.insert(FieldsToMap(entry.fields, rfc3339)).None? ==> r.0 == [entry]
    ensures store.Collection? && store.insert(FieldsToMap(entry.fields, rfc3339)).Some? ==>
              r.0 == [entry, InsertFailed(store.insert(FieldsToMap(entry.fields, rfc3339)).value)]
  {
    match store
    case NoCollection => ([entry], [])
    case Collection(insert) =>
      var doc := FieldsToMap(entry.fields, rfc3339);
      match insert(doc)
      case None => ([entry], [doc])
      case Some(e) => ([entry, InsertFailed(e)], [doc])
  }

  /** Everything after the body has been read: run the handler through the
   *  tee, forward its error, build the fields, then skip, or classify, log
   *  and persist. `c` already carries the restored body and the tee. */
  function Observe(store: Persistence, render: Render, clock: Clock, fw: Framework, c: Exchange, body: Bytes): (r: Run)
    requires c.response.writer.Teed? && c.response.writer.captured == []
    ensures r.result == None && r.calls == [c]
    ensures r.reported == ErrorList(fw.next(c).err)
    ensures r.response.status == FinalStatus(fw, c) && r.response.header == FinalHeader(fw, c)
    ensures Delivered(r.response.writer) == Delivered(c.response.writer) + HandlerWrites(fw, c)
    ensures r.log == [] <==> Skipped(c.path, r.response.status)
    ensures r.log == [] ==> r.inserted == []
    ensures r.log != [] ==>
      && (r.log[0].level, r.log[0].message) == Classify(r.response.status)
      && r.log[0].fields == BuildFields(
           c, r.response, LogRequestID(c.request.header, r.response.header),
           LoggerContext.GetTraceIDFromContext(c.request.ctx), c.request.ctx.span.spanID,
           clock, render, body, HandlerWrites(fw, c))
      && (r.log, r.inserted) == Emit(store, render.rfc3339, r.log[0])
  {
    var (res, reported) := Handle(fw, c);
    var requestID := LogRequestID(c.request.header, res.header);
    var traceID := LoggerContext.GetTraceIDFromContext(c.request.ctx);
    var spanID := c.request.ctx.span.spanID;
    assert res.writer.captured == HandlerWrites(fw, c);
    var fields := BuildFields(c, res, requestID, traceID, spanID, clock, render, body, res.writer.captured);
    if Skipped(c.path, res.status) then
      Run(None, [c], reported, [], [], res)
    else
      var (level, message) := Classify(res.status);
      var (log, inserted) := Emit(store, render.rfc3339, Entry(level, message, fields));
      Run(None, [c], reported, log, inserted, res)
  }

  /** `ZapLogger(log, collection)` applied to `next` and run on `c`. */
  function ZapLogger(store: Persistence, render: Render, clock: Clock, fw: Framework, c: Exchange): (r: Run)
    // A WebSocket upgrade goes straight to the handler, untouched and unlogged.
    ensures c.request.isUpgrade ==>
      && r.calls == [c] && r.result == fw.next(c).err
      && r.reported == [] && r.log == [] && r.inserted == []
      && r.response == ApplyEffect(c.response, fw.next(c).effect)
    // A body that cannot be read aborts the request with the reader's error.
    ensures !c.request.isUpgrade && c.request.body.fault.Some? ==>
      r == Run(c.request.body.fault, [], [], [], [], c.response)
    // Otherwise the handler runs once, on a restored body and a tee, and the
    // middleware itself always succeeds.
    ensures !c.request.isUpgrade && c.request.body.fault.None? ==>
      && r.result == None
      && |r.calls| == 1
      && r.calls[0] == c.(request := r.calls[0].request, response := c.response.(writer := Teed(c.response.writer, [])))
      && r.calls[0].request == c.request.(body := r.calls[0].request.body)
      && ReadAll(r.calls[0].request.body).Success?
      && ReadAll(r.calls[0].request.body).value.0 == Unread(c.request.body)
      && r.reported == ErrorList(fw.next(r.calls[0]).err)
      && r.response.status == FinalStatus(fw, r.calls[0])
      && r.response.header == FinalHeader(fw, r.calls[0])
      && Delivered(r.response.writer) == Delivered(c.response.writer) + HandlerWrites(fw, r.calls[0])
      && (r.log == [] <==> Skipped(c.path, r.response.status))
      && (r.log == [] ==> r.inserted == [])
      && (r.log != [] ==> (r.log[0].level, r.log[0].message) == Classify(r.response.status))
      && (r.log != [] ==> r.log[0].fields == BuildFields(
            r.calls[0], r.response, LogRequestID(c.request.header, r.response.header),
            LoggerContext.GetTraceIDFromContext(c.request.ctx), c.request.ctx.span.spanID,
            clock, render, Unread(c.request.body), HandlerWrites(fw, r.calls[0])))
      && (r.log != [] ==> (r.log, r.inserted) == Emit(store, render.rfc3339, r.log[0]))
  {
    if c.request.isUpgrade then
      var out := fw.next(c);
      Run(out.err, [c], [], [], [], ApplyEffect(c.response, out.effect))
    else
      match ReadAndResetBody(c.request)
      case Failure(e) => Run(Some(e), [], [], [], [], c.response)
      case Success((body, req)) =>
        var c1 := c.(request := req, response := c.response.(writer := Teed(c.response.writer, [])));
        Observe(store, render, clock, fw, c1, body)
  }

  /** The document of a field list keyed by `LogKeys` holds exactly those
   *  keys, each with the translation of its field. */
  lemma LogKeysDocument(fs: seq<Field>, rfc3339: Int64 -> string)
    requires |fs| == |LogKeys|
    requires forall i :: 0 <= i < |fs| ==> fs[i].key == LogKeys[i]
    ensures forall k :: k in FieldsToMap(fs, rfc3339) <==> k in LogKeys
    ensures forall i :: 0 <= i < |fs| ==>
      LogKeys[i] in FieldsToMap(fs, rfc3339) && FieldsToMap(fs, rfc3339)[LogKeys[i]] == Convert(fs[i], rfc3339)
  {
    LogKeysDistinct(fs);
    DistinctKeysAllKept(fs, rfc3339);
    var d := FieldsToMap(fs, rfc3339);
    forall k | k in LogKeys ensures k in d {
      var i :| 0 <= i < |LogKeys| && LogKeys[i] == k;
      assert fs[i].key == k;
    }
  }

  /** Where the keys the document lemmas name sit in `LogKeys`. Stated once
   *  here so that the proofs about documents name positions instead of
   *  unfolding the 21-key literal, which the solver handles slowly. */
  lemma LogKeyPositions()
    ensures LogKeys[0] == StatusKey && LogKeys[2] == LoggerContext.RequestIDKey
    ensures LogKeys[3] == LoggerContext.TraceIDKey && LogKeys[4] == LoggerContext.SpanIDKey
    ensures LogKeys[16] == BodyKey && LogKeys[20] == ResponseKey
  {
  }

  /** A string field of a `LogKeys` list is stored as its text; one position
   *  at a time, for the same reason as `LogKeyPositions`. */
  lemma LoggedText(d: Document, fs: seq<Field>, rfc3339: Int64 -> string, i: nat, text: string)
    requires |fs| == |LogKeys| && i < |fs| && fs[i] == StringField(LogKeys[i], text)
    requires LogKeys[i] in d && d[LogKeys[i]] == Convert(fs[i], rfc3339)
    ensures d[LogKeys[i]] == Text(text)
  {
  }

  /** The document of a field list keyed by `LogKeys`, given the fields the
   *  store's readers rely on: the status as an integer, and the identifiers
   *  and both bodies as text. */
  lemma KeyedDocument(
    fs: seq<Field>, rfc3339: Int64 -> string,
    status: Int64, requestID: string, traceID: string, spanID: string, body: string, response: string)
    requires |fs| == |LogKeys|
    requires forall i :: 0 <= i < |fs| ==> fs[i].key == LogKeys[i]
    requires fs[0] == Int64Field(LogKeys[0], status)
    requires fs[2] == StringField(LogKeys[2], requestID) && fs[3] == StringField(LogKeys[3], traceID)
    requires fs[4] == StringField(LogKeys[4], spanID) && fs[16] == StringField(LogKeys[16], body)
    requires fs[20] == StringField(LogKeys[20], response)
    ensures var d := FieldsToMap(fs, rfc3339);
      && (forall k :: k in d <==> k in LogKeys)
      && StatusKey in d && d[StatusKey] == Integer(status)
      && LoggerContext.RequestIDKey in d && d[LoggerContext.RequestIDKey] == Text(requestID)
      && LoggerContext.TraceIDKey in d && d[LoggerContext.TraceIDKey] == Text(traceID)
      && LoggerContext.SpanIDKey in d && d[LoggerContext.SpanIDKey] == Text(spanID)
      && BodyKey in d && d[BodyKey] == Text(body)
      && ResponseKey in d && d[ResponseKey] == Text(response)
  {
    var d := FieldsToMap(fs, rfc3339);
    LogKeysDocument(fs, rfc3339);
    LogKeyPositions();
    assert d[StatusKey] == Convert(fs[0], rfc3339);
    LoggedText(d, fs, rfc3339, 2, requestID);
    LoggedText(d, fs, rfc3339, 3, traceID);
    LoggedText(d, fs, rfc3339, 4, spanID);
    LoggedText(d, fs, rfc3339, 16, body);
    LoggedText(d, fs, rfc3339, 20, response);
  }

  /** The document built from the logged fields: the status as an integer,
   *  and the identifiers and both bodies as the text that was logged. */
  lemma BuildFieldsDocument(
    c: Exchange, res: Response, requestID: string, traceID: string, spanID: string,
    clock: Clock, render: Render, body: Bytes, captured: Bytes)
    ensures var d := FieldsToMap(BuildFields(c, res, requestID, traceID, spanID, clock, render, body, captured), render.rfc3339);
      && (forall k :: k in d <==> k in LogKeys)
      && StatusKey in d && d[StatusKey] == Integer(res.status)
      && LoggerContext.RequestIDKey in d && d[LoggerContext.RequestIDKey] == Text(requestID)
      && LoggerContext.TraceIDKey in d && d[LoggerContext.TraceIDKey] == Text(traceID)
      && LoggerContext.SpanIDKey in d && d[LoggerContext.SpanIDKey] == Text(spanID)
      && BodyKey in d && d[BodyKey] == Text(AsString(body))
      && ResponseKey in d && d[ResponseKey] == Text(AsString(captured))
  {
    var fs := BuildFields(c, res, requestID, traceID, spanID, clock, render, body, captured);
    var p := Payloads(c, res, requestID, traceID, spanID, clock, render, body, captured);
    assert fs[0] == Attach(LogKeys[0], p[0]) && fs[2] == Attach(LogKeys[2], p[2]);
    assert fs[3] == Attach(LogKeys[3], p[3]) && fs[4] == Attach(LogKeys[4], p[4]);
    assert fs[16] == Attach(LogKeys[16], p[16]) && fs[20] == Attach(LogKeys[20], p[20]);
    KeyedDocument(fs, render.rfc3339, res.status, requestID, traceID, spanID, AsString(body), AsString(captured));
  }

  /** The document handed to the store: one entry per logged key, among them
   *  the final status, the request body as read, the response bytes the
   *  client received from the handler, and the identifiers, each as logged. */
  lemma LoggedDocument(store: Persistence, render: Render, clock: Clock, fw: Framework, c: Exchange)
    requires store.Collection?
    requires !c.request.isUpgrade && c.request.body.fault.None?
    ensures var r := ZapLogger(store, render, clock, fw, c);
      && |r.calls| == 1
      && (r.log == [] <==> Skipped(c.path, r.response.status))
      && (r.log != [] ==>
            && |r.inserted| == 1
            && var d := r.inserted[0];
            && (forall k :: k in d <==> k in LogKeys)
            && StatusKey in d && d[StatusKey] == Integer(r.response.status)
            && LoggerContext.RequestIDKey in d
            && d[LoggerContext.RequestIDKey] == Text(LogRequestID(c.request.header, r.response.header))
            && LoggerContext.TraceIDKey in d
            && d[LoggerContext.TraceIDKey] == Text(LoggerContext.GetTraceIDFromContext(c.request.ctx))
            && LoggerContext.SpanIDKey in d && d[LoggerContext.SpanIDKey] == Text(c.request.ctx.span.spanID)
            && BodyKey in d && d[BodyKey] == Text(AsString(Unread(c.request.body)))
            && ResponseKey in d && d[ResponseKey] == Text(AsString(HandlerWrites(fw, r.calls[0]))))
  {
    var r := ZapLogger(store, render, clock, fw, c);
    BuildFieldsDocument(
      r.calls[0], r.response, LogRequestID(c.request.header, r.response.header),
      LoggerContext.GetTraceIDFromContext(c.request.ctx), c.request.ctx.span.spanID,
      clock, render, Unread(c.request.body), HandlerWrites(fw, r.calls[0]));
  }

  /** A health check that answers 200 without an error leaves no trace: no
   *  entry is logged and nothing is handed to the store. */
  lemma HealthyHealthCheckUnlogged(store: Persistence, render: Render, clock: Clock, fw: Framework, c: Exchange)
    requires !c.request.isUpgrade && c.request.body.fault.None?
    requires c.path == HealthzPath
    requires forall x :: fw.next(x).effect.status == Some(200) && fw.next(x).err.None?
    ensures var r := ZapLogger(store, render, clock, fw, c);
      r.log == [] && r.inserted == []
  {
    var r := ZapLogger(store, render, clock, fw, c);
    assert Recovery(fw, r.calls[0]).None?;
    assert r.response.status == 200;
  }

  /** A handler that succeeds after setting a status outside the health-check
   *  skip gets a first entry whose level and message are those of that
   *  status's band; without a collection it is the only entry. */
  lemma HandlerStatusClassified(store: Persistence, render: Render, clock: Clock, fw: Framework, c: Exchange, status: Int64)
    requires !c.request.isUpgrade && c.request.body.fault.None?
    requires !Skipped(c.path, status)
    requires forall x :: fw.next(x).effect.status == Some(status) && fw.next(x).err.None?
    ensures var r := ZapLogger(store, render, clock, fw, c);
      && r.log != [] && (r.log[0].level, r.log[0].message) == Classify(status)
      && (store.NoCollection? ==> |r.log| == 1)
  {
    var r := ZapLogger(store, render, clock, fw, c);
    assert Recovery(fw, r.calls[0]).None?;
    assert r.response.status == status;
  }

  /** A request without an `X-Request-Id` header is logged under the ID the
   *  handler put on the response. */
  lemma ResponseRequestIDLogged(store: Persistence, render: Render, clock: Clock, fw: Framework, c: Exchange, id: string)
    requires !c.request.isUpgrade && c.request.body.fault.None?
    requires HeaderGet(c.request.header, XRequestID) == ""
    requires forall x :: XRequestID in fw.next(x).effect.headers && fw.next(x).effect.headers[XRequestID] == id
                         && fw.next(x).err.None?
    ensures var r := ZapLogger(store, render, clock, fw, c);
      r.log != [] ==> r.log[0].fields[2] == StringField(LoggerContext.RequestIDKey, id)
  {
    var r := ZapLogger(store, render, clock, fw, c);
    assert Recovery(fw, r.calls[0]).None?;
    assert HeaderGet(r.response.header, XRequestID) == id;
    LogKeyPositions();
  }

  /** The insertion scenario of the repository's tests: a handler that
   *  answers 500 with a body, and a store whose insert fails. Two entries
   *  are logged, the server error and then the failed insert, and the
   *  document carries the status and the body the client received. */
  lemma FailedInsertLogsTwice(render: Render, clock: Clock, fw: Framework, c: Exchange, failure: Error, written: Bytes)
    requires !c.request.isUpgrade && c.request.body.fault.None?
    requires forall x :: fw.next(x) == Outcome(Effect(Some(500), map[], [written]), None)
    ensures var r := ZapLogger(Collection(d => Some(failure)), render, clock, fw, c);
      && |r.log| == 2
      && r.log[0].level == ErrorLevel && r.log[0].message == "Server error"
      && r.log[1] == InsertFailed(failure)
      && |r.inserted| == 1
      && StatusKey in r.inserted[0] && r.inserted[0][StatusKey] == Integer(500)
      && ResponseKey in r.inserted[0] && r.inserted[0][ResponseKey] == Text(AsString(written))
      && BodyKey in r.inserted[0] && r.inserted[0][BodyKey] == Text(AsString(Unread(c.request.body)))
  {
    var store := Collection(d => Some(failure));
    var r := ZapLogger(store, render, clock, fw, c);
    assert Flatten([written]) == written;
    assert r.response.status == 500;
    LoggedDocument(store, render, clock, fw, c);
    assert HandlerWrites(fw, r.calls[0]) == written;
  }
}

=== FILE: http.dfy ===
/** The framework objects the middleware touches, reduced to plain records:
 *  the request (headers, body, Go context), the response (status, headers,
 *  writer), the Echo context that bundles them, and the effect a handler
 *  has on the response.
 */
module Http {
  import opened Common
  import opened Streams

  /** Go's `http.Header`. Keys are held in canonical MIME form. */
  type Header = map<string, seq<string>>

  /** Go's `url.Values`. */
  type Form = map<string, seq<string>>

  /** `echo.HeaderXRequestID` in the canonical form `Header.Get` looks up. */
  const XRequestID := "X-Request-Id"
  const UserAgentHeader := "User-Agent"
  const RefererHeader := "Referer"

  /** The reserved health-check route. */
  const HealthzPath := "/healthz"

  /** `Header.Get`: the first value stored under the key, or "". */
  function HeaderGet(h: Header, key: string): (v: string)
    ensures key in h && |h[key]| > 0 ==> v == h[key][0]
    ensures key !in h || |h[key]| == 0 ==> v == ""
  {
    if key in h && |h[key]| > 0 then h[key][0] else ""
  }

  /** The span context an OpenTelemetry span reports: whether it is valid
   *  and the hexadecimal renderings of its trace and span IDs (the
   *  all-zero renderings for the no-op span of an empty context). */
  datatype SpanContext = SpanContext(valid: bool, traceID: string, spanID: string)

  /** A `*zap.SugaredLogger`: the logger it derives from and the key/value
   *  pairs added with `With`. */
  datatype Logger = Logger(name: string, fields: seq<(string, string)>)

  /** A value held in the Echo context store or the Go context, tagged with
   *  its dynamic Go type. */
  datatype Value = Str(text: string) | Sugared(logger: Logger) | Other(typeName: string)

  /** A Go `context.Context`: the active span and the values attached with
   *  `context.WithValue` under string keys (the innermost one wins, which a
   *  map update models). */
  datatype GoContext = GoContext(span: SpanContext, values: map<string, Value>)

  /** An `*http.Request`; `verb` is its `Method`. `isUpgrade` is the verdict of
   *  `websocket.IsWebSocketUpgrade`. */
  datatype Request = Request(
    verb: string,
    uri: string,
    host: string,
    remoteAddr: string,
    proto: string,
    header: Header,
    form: Form,
    body: Body,
    ctx: GoContext,
    isUpgrade: bool)

  /** An `*echo.Response`. */
  datatype Response = Response(status: Int64, header: Header, writer: Writer)

  /** An `echo.Context`: request, response, the matched route path, the route
   *  parameter values, the raw query string, `RealIP()`, and the store that
   *  `Set`/`Get` use. */
  datatype Exchange = Exchange(
    request: Request,
    response: Response,
    path: string,
    params: seq<string>,
    query: string,
    realIP: string,
    store: map<string, Value>)

  /** What a handler does to the response: an optional status
   *  (`WriteHeader`), headers it sets, and the chunks it writes. */
  datatype Effect = Effect(status: Option<Int64>, headers: map<string, string>, writes: seq<Bytes>)

  /** A handler's effect and the error it returns. */
  datatype Outcome = Outcome(effect: Effect, err: Option<Error>)

  /** An `echo.HandlerFunc`. */
  type Handler = Exchange -> Outcome

  /** The host framework's `HTTPErrorHandler`, reached through `c.Error`. */
  type ErrorHandler = (Error, Exchange) -> Effect

  /** Library renderings the model does not interpret: `fmt.Sprintf("%v")`
   *  of headers and of route parameters, `Form.Encode`, and RFC 3339
   *  formatting of a Unix time in nanoseconds. */
  datatype Render = Render(
    header: Header -> string,
    form: Form -> string,
    params: seq<string> -> string,
    rfc3339: Int64 -> string)

  /** Every header of `sets` set on `h`, the rest kept. */
  function SetHeaders(h: Header, sets: map<string, string>): (r: Header)
    ensures r.Keys == h.Keys + sets.Keys
    ensures forall k :: k in sets ==> HeaderGet(r, k) == sets[k]
    ensures forall k :: k in h && k !in sets ==> r[k] == h[k]
  {
    h + map k | k in sets :: [sets[k]]
  }

  /** The response after a handler's effect: status and headers set, then
   *  every chunk written through the response's current writer. */
  function ApplyEffect(res: Response, e: Effect): (r: Response)
    ensures r.status == (if e.status.Some? then e.status.value else res.status)
    ensures r.header == SetHeaders(res.header, e.headers)
    ensures Delivered(r.writer) == Delivered(res.writer) + Flatten(e.writes)
    ensures r.writer.Teed? <==> res.writer.Teed?
    ensures res.writer.Teed? ==> r.writer.captured == res.writer.captured + Flatten(e.writes)
  {
    Response(
      if e.status.Some? then e.status.value else res.status,
      SetHeaders(res.header, e.headers),
      WriteAll(res.writer, e.writes))
  }
}

=== FILE: logger_context.dfy ===
/** Correlation identifiers and the context-bound logger: how the request ID
 *  and the trace/span IDs are resolved, how `LoggerWithContext` stores them
 *  (with a logger carrying them) in both the Echo context and the Go
 *  context, how `OtelLoggerMiddleware` attaches the request ID to the span,
 *  and the accessors that read them back with safe fallbacks.
 */
module LoggerContext {
  import opened Common
  import opened Http

  const LoggerKey := "logger"
  const TraceIDKey := "trace_id"
  const SpanIDKey := "span_id"
  const RequestIDKey := "request_id"

  /** The span attribute the request ID is attached under. */
  const RequestIDAttribute := "request.id"

  /** The only keys the middlewares of this file ever write. */
  const BoundKeys: set<string> := {LoggerKey, TraceIDKey, SpanIDKey, RequestIDKey}

  /** A string stored under `key`, or "" when the key is absent or holds a
   *  value of another type (the failed `.(string)` assertion). */
  function StoredString(m: map<string, Value>, key: string): (s: string)
    ensures key in m && m[key].Str? ==> s == m[key].text
    ensures key !in m || !m[key].Str? ==> s == ""
  {
    if key in m && m[key].Str? then m[key].text else ""
  }

  /** A logger stored under `key`, or `fallback` when the key is absent or
   *  holds a value that is not a `*zap.SugaredLogger`. */
  function StoredLogger(m: map<string, Value>, key: string, fallback: Logger): (l: Logger)
    ensures key in m && m[key].Sugared? ==> l == m[key].logger
    ensures key !in m || !m[key].Sugared? ==> l == fallback
  {
    if key in m && m[key].Sugared? then m[key].logger else fallback
  }

  /** `GetLogger`: the logger in the Echo context, else the global one. */
  function GetLogger(c: Exchange, global: Logger): (l: Logger)
    ensures LoggerKey in c.store && c.store[LoggerKey].Sugared? ==> l == c.store[LoggerKey].logger
    ensures LoggerKey !in c.store || !c.store[LoggerKey].Sugared? ==> l == global
  {
    StoredLogger(c.store, LoggerKey, global)
  }

  /** `GetLoggerFromContext`: the logger in the Go context, else the global one. */
  function GetLoggerFromContext(ctx: GoContext, global: Logger): (l: Logger)
    ensures LoggerKey in ctx.values && ctx.values[LoggerKey].Sugared? ==> l == ctx.values[LoggerKey].logger
    ensures LoggerKey !in ctx.values || !ctx.values[LoggerKey].Sugared? ==> l == global
  {
    StoredLogger(ctx.values, LoggerKey, global)
  }

  /** `GetTraceID`: the trace ID string in the Echo context, else "". */
  function GetTraceID(c: Exchange): (id: string)
    ensures TraceIDKey in c.store && c.store[TraceIDKey].Str? ==> id == c.store[TraceIDKey].text
    ensures TraceIDKey !in c.store || !c.store[TraceIDKey].Str? ==> id == ""
  {
    StoredString(c.store, TraceIDKey)
  }

  /** `GetTraceIDFromContext`: the trace ID string in the Go context, else "". */
  function GetTraceIDFromContext(ctx: GoContext): (id: string)
    ensures TraceIDKey in ctx.values && ctx.values[TraceIDKey].Str? ==> id == ctx.values[TraceIDKey].text
    ensures TraceIDKey !in ctx.values || !ctx.values[TraceIDKey].Str? ==> id == ""
  {
    StoredString(ctx.values, TraceIDKey)
  }

  /** `GetSpanID`: the span ID string in the Echo context, else "". */
  function GetSpanID(c: Exchange): (id: string)
    ensures SpanIDKey in c.store && c.store[SpanIDKey].Str? ==> id == c.store[SpanIDKey].text
    ensures SpanIDKey !in c.store || !c.store[SpanIDKey].Str? ==> id == ""
  {
    StoredString(c.store, SpanIDKey)
  }

  /** `GetSpanIDFromContext`: the span ID string in the Go context, else "". */
  function GetSpanIDFromContext(ctx: GoContext): (id: string)
    ensures SpanIDKey in ctx.values && ctx.values[SpanIDKey].Str? ==> id == ctx.values[SpanIDKey].text
    ensures SpanIDKey !in ctx.values || !ctx.values[SpanIDKey].Str? ==> id == ""
  {
    StoredString(ctx.values, SpanIDKey)
  }

  /** `GetRequestID`: the request ID string in the Echo context, else "". */
  function GetRequestID(c: Exchange): (id: string)
    ensures RequestIDKey in c.store && c.store[RequestIDKey].Str? ==> id == c.store[RequestIDKey].text
    ensures RequestIDKey !in c.store || !c.store[RequestIDKey].Str? ==> id == ""
  {
    StoredString(c.store, RequestIDKey)
  }

  /** `GetRequestIDFromContext`: the request ID string in the Go context, else "". */
  function GetRequestIDFromContext(ctx: GoContext): (id: string)
    ensures RequestIDKey in ctx.values && ctx.values[RequestIDKey].Str? ==> id == ctx.values[RequestIDKey].text
    ensures RequestIDKey !in ctx.values || !ctx.values[RequestIDKey].Str? ==> id == ""
  {
    StoredString(ctx.values, RequestIDKey)
  }

  /** The request ID as both middlewares of this file resolve it: the
   *  response's `X-Request-ID` (set by Echo's RequestID middleware) if
   *  non-empty, else the request's, else "". It never fails. */
  function ResolveRequestID(c: Exchange): (id: string)
    ensures id == "" <==> HeaderGet(c.response.header, XRequestID) == "" && HeaderGet(c.request.header, XRequestID) == ""
    ensures id == HeaderGet(c.response.header, XRequestID) || id == HeaderGet(c.request.header, XRequestID)
    ensures HeaderGet(c.response.header, XRequestID) != "" ==> id == HeaderGet(c.response.header, XRequestID)
  {
    var fromResponse := HeaderGet(c.response.header, XRequestID);
    if fromResponse == "" then HeaderGet(c.request.header, XRequestID) else fromResponse
  }

  /** The trace and span IDs of a span context: its renderings when it is
   *  valid, and both empty when it is not. */
  function TraceAndSpanIDs(sc: SpanContext): (ids: (string, string))
    ensures sc.valid ==> ids == (sc.traceID, sc.spanID)
    ensures !sc.valid ==> ids == ("", "")
  {
    if sc.valid then (sc.traceID, sc.spanID) else ("", "")
  }

  /** The run of one middleware around `next`: the contexts `next` was
   *  called with, the attributes set on the active span, and the error the
   *  middleware returns. */
  datatype ChainRun = ChainRun(calls: seq<Exchange>, attributes: seq<(string, string)>, result: Option<Error>)

  /** `OtelLoggerMiddleware`: attach the request ID to a valid span, store
   *  it under `request_id` in the Go context, and call `next` once. */
  function OtelLoggerMiddleware(next: Handler, c: Exchange): (r: ChainRun)
    ensures |r.calls| == 1
    ensures r.result == next(r.calls[0]).err
    ensures c.request.ctx.span.valid ==> r.attributes == [(RequestIDAttribute, ResolveRequestID(c))]
    ensures !c.request.ctx.span.valid ==> r.attributes == []
    ensures GetRequestIDFromContext(r.calls[0].request.ctx) == ResolveRequestID(c)
    ensures RequestIDKey in r.calls[0].request.ctx.values
            && r.calls[0].request.ctx.values[RequestIDKey] == Str(ResolveRequestID(c))
    ensures r.calls[0].request.ctx.values.Keys == c.request.ctx.values.Keys + {RequestIDKey}
    ensures forall k :: k in c.request.ctx.values && k != RequestIDKey ==>
              r.calls[0].request.ctx.values[k] == c.request.ctx.values[k]
    ensures r.calls[0] == c.(request := c.request.(ctx := r.calls[0].request.ctx))
    ensures r.calls[0].request.ctx.span == c.request.ctx.span
  {
    var requestID := ResolveRequestID(c);
    var attributes := if c.request.ctx.span.valid then [(RequestIDAttribute, requestID)] else [];
    var ctx := c.request.ctx.(values := c.request.ctx.values[RequestIDKey := Str(requestID)]);
    var c' := c.(request := c.request.(ctx := ctx));
    ChainRun([c'], attributes, next(c').err)
  }

  /** The logger `LoggerWithContext` derives from the global one: the three
   *  identifiers added as fields with `With`. */
  function ContextLogger(global: Logger, traceID: string, spanID: string, requestID: string): (l: Logger)
    ensures l.name == global.name
    ensures |l.fields| == |global.fields| + 3 && l.fields[..|global.fields|] == global.fields
    ensures l.fields[|global.fields|..] == [(TraceIDKey, traceID), (SpanIDKey, spanID), (RequestIDKey, requestID)]
  {
    Logger(global.name, global.fields + [(TraceIDKey, traceID), (SpanIDKey, spanID), (RequestIDKey, requestID)])
  }

  /** A store with the four bindings `LoggerWithContext` writes: the
   *  logger and the three identifiers under their keys, every other key
   *  kept. */
  function Bound(m: map<string, Value>, l: Logger, traceID: string, spanID: string, requestID: string): (r: map<string, Value>)
    ensures r.Keys == m.Keys + BoundKeys
    ensures forall k :: k in m && k !in BoundKeys ==> r[k] == m[k]
    ensures r[LoggerKey] == Sugared(l) && r[TraceIDKey] == Str(traceID)
    ensures r[SpanIDKey] == Str(spanID) && r[RequestIDKey] == Str(requestID)
  {
    m[LoggerKey := Sugared(l)][TraceIDKey := Str(traceID)][SpanIDKey := Str(spanID)][RequestIDKey := Str(requestID)]
  }

  /** The context `LoggerWithContext` hands to `next`: the identifiers and the
   *  logger carrying them stored in the Echo context and in the Go context.
   *  Read back through either family of accessors they agree, they are the
   *  resolved identifiers, and no other key or field is touched. */
  function Bind(c: Exchange, global: Logger): (b: Exchange)
    ensures var (traceID, spanID) := TraceAndSpanIDs(c.request.ctx.span);
      && GetTraceID(b) == GetTraceIDFromContext(b.request.ctx) == traceID
      && GetSpanID(b) == GetSpanIDFromContext(b.request.ctx) == spanID
      && GetRequestID(b) == GetRequestIDFromContext(b.request.ctx) == ResolveRequestID(c)
      && GetLogger(b, global) == GetLoggerFromContext(b.request.ctx, global)
         == ContextLogger(global, traceID, spanID, ResolveRequestID(c))
    ensures b.store.Keys == c.store.Keys + BoundKeys
    ensures b.request.ctx.values.Keys == c.request.ctx.values.Keys + BoundKeys
    // Both stores hold the identifiers as strings and the logger as a
    // sugared logger, whatever their values.
    ensures var (traceID, spanID) := TraceAndSpanIDs(c.request.ctx.span);
      forall m | m == b.store || m == b.request.ctx.values ::
        && TraceIDKey in m && m[TraceIDKey] == Str(traceID)
        && SpanIDKey in m && m[SpanIDKey] == Str(spanID)
        && RequestIDKey in m && m[RequestIDKey] == Str(ResolveRequestID(c))
        && LoggerKey in m && m[LoggerKey] == Sugared(ContextLogger(global, traceID, spanID, ResolveRequestID(c)))
    ensures forall k :: k in c.store && k !in BoundKeys ==> b.store[k] == c.store[k]
    ensures forall k :: k in c.request.ctx.values && k !in BoundKeys ==> b.request.ctx.values[k] == c.request.ctx.values[k]
    ensures b == c.(store := b.store, request := c.request.(ctx := c.request.ctx.(values := b.request.ctx.values)))
  {
    var (traceID, spanID) := TraceAndSpanIDs(c.request.ctx.span);
    var requestID := ResolveRequestID(c);
    var logger := ContextLogger(global, traceID, spanID, requestID);
    var ctx := c.request.ctx.(values := Bound(c.request.ctx.values, logger, traceID, spanID, requestID));
    c.(store := Bound(c.store, logger, traceID, spanID, requestID), request := c.request.(ctx := ctx))
  }

  /** `LoggerWithContext`: bind the identifiers and the logger, then call
   *  `next` once with the bound context and return its error unchanged. */
  function LoggerWithContext(global: Logger, next: Handler, c: Exchange): (r: ChainRun)
    ensures r.calls == [Bind(c, global)]
    ensures r.attributes == []
    ensures r.result == next(Bind(c, global)).err
  {
    var b := Bind(c, global);
    ChainRun([b], [], next(b).err)
  }

  /** Without a valid span, every trace/span accessor reads "" after
   *  `LoggerWithContext`; with one, both families read its rendered IDs. */
  lemma BoundIDsFollowSpanValidity(c: Exchange, global: Logger)
    ensures var b := Bind(c, global);
      && (!c.request.ctx.span.valid ==>
            GetTraceID(b) == "" && GetSpanID(b) == ""
            && GetTraceIDFromContext(b.request.ctx) == "" && GetSpanIDFromContext(b.request.ctx) == "")
      && (c.request.ctx.span.valid ==>
            GetTraceID(b) == c.request.ctx.span.traceID && GetSpanID(b) == c.request.ctx.span.spanID
            && GetTraceIDFromContext(b.request.ctx) == c.request.ctx.span.traceID
            && GetSpanIDFromContext(b.request.ctx) == c.request.ctx.span.spanID)
  {
  }

  /** Chained as `OtelLoggerMiddleware` then `LoggerWithContext`, the two
   *  middlewares agree on the request ID: the one the first stores in the
   *  Go context is the one the second binds, since neither rule reads the
   *  context. */
  lemma ChainedRequestIDsAgree(next: Handler, c: Exchange, global: Logger)
    ensures var inner := OtelLoggerMiddleware(next, c).calls[0];
      && GetRequestIDFromContext(inner.request.ctx) == ResolveRequestID(c)
      && GetRequestID(Bind(inner, global)) == GetRequestIDFromContext(Bind(inner, global).request.ctx) == ResolveRequestID(c)
      && GetTraceIDFromContext(Bind(inner, global).request.ctx) == TraceAndSpanIDs(c.request.ctx.span).0
  {
    var inner := OtelLoggerMiddleware(next, c).calls[0];
    assert ResolveRequestID(inner) == ResolveRequestID(c);
  }
}

=== FILE: streams.dfy ===
/** The two byte streams the middleware sits on: the request body, read
 *  through a cursor, and the response writer, which may be wrapped in a tee
 *  that copies every write into a capture buffer.
 */
module Streams {
  import opened Common

  /** A request body: its bytes, how many of them have been read, and the
   *  error the underlying reader reports once its bytes run out (`None` when
   *  it reports end of stream instead). A reader that fails straight away is
   *  one whose data is empty. */
  datatype Stream = Stream(data: Bytes, cursor: nat, fault: Option<Error>)

  type Body = s: Stream | s.cursor <= |s.data| witness Stream([], 0, None)

  /** The bytes a reader of the body has yet to see. */
  function Unread(s: Body): Bytes
  {
    s.data[s.cursor..]
  }

  /** `io.NopCloser(bytes.NewBuffer(b))`: an unconsumed, error-free body. */
  function Fresh(b: Bytes): (s: Body)
    ensures Unread(s) == b
    ensures s.fault == None
  {
    Stream(b, 0, None)
  }

  /** What one call of `Read(p)` can report. */
  datatype ReadStep = Chunk(bytes: Bytes, rest: Body) | Eof | Fault(error: Error)

  /** One `Read(p)` with `len(p) == n`: up to `n` unread bytes while any are
   *  left; afterwards the reader's error, or end of stream. */
  function Read(s: Body, n: nat): (r: ReadStep)
    ensures r.Chunk? <==> s.cursor < |s.data|
    ensures r.Chunk? ==> r.bytes + Unread(r.rest) == Unread(s) && r.rest.fault == s.fault
    ensures r.Chunk? ==> |r.bytes| <= n
    ensures r.Chunk? && n > 0 ==> |r.bytes| > 0
    ensures r.Fault? <==> s.cursor == |s.data| && s.fault.Some?
    ensures r.Fault? ==> r.error == s.fault.value
  {
    if s.cursor < |s.data| then
      var k := if n < |s.data| - s.cursor then n else |s.data| - s.cursor;
      Chunk(s.data[s.cursor..s.cursor + k], s.(cursor := s.cursor + k))
    else if s.fault.Some? then
      Fault(s.fault.value)
    else
      Eof
  }

  /** Buffer size of each read `io.ReadAll` issues; the result does not
   *  depend on it. */
  const ChunkSize: nat := 512

  /** `io.ReadAll`: read until end of stream or error. On success the result
   *  is exactly the unread bytes and the body is left fully consumed; if
   *  the reader fails, the bytes read so far are dropped and only the
   *  error is reported (as `readAndResetBody` does). */
  function ReadAll(s: Body): (r: Result<(Bytes, Body)>)
    ensures r.Success? <==> s.fault.None?
    ensures r.Failure? ==> r.error == s.fault.value
    ensures r.Success? ==> r.value.0 == Unread(s) && Unread(r.value.1) == []
    decreases |s.data| - s.cursor
  {
    match Read(s, ChunkSize)
    case Eof => Success(([], s))
    case Fault(e) => Failure(e)
    case Chunk(b, rest) =>
      match ReadAll(rest)
      case Failure(e) => Failure(e)
      case Success((tail, end)) => Success((b + tail, end))
  }

  /** A response writer: the connection to the client, or a tee (Go's
   *  `io.MultiWriter(inner, buffer)`) that writes to an inner writer first
   *  and then appends the same bytes to its capture buffer. */
  datatype Writer = Direct(sent: Bytes) | Teed(inner: Writer, captured: Bytes)

  /** The bytes the client connection has received through `w`. */
  function Delivered(w: Writer): Bytes
  {
    match w
    case Direct(sent) => sent
    case Teed(inner, _) => Delivered(inner)
  }

  /** `Write(b)` on the success path: every layer receives all of `b` and the
   *  count reported is `len(b)`. */
  function Write(w: Writer, b: Bytes): (r: (Writer, nat))
    ensures r.1 == |b|
    ensures Delivered(r.0) == Delivered(w) + b
    ensures r.0.Teed? <==> w.Teed?
    ensures w.Teed? ==> r.0.captured == w.captured + b
  {
    match w
    case Direct(sent) => (Direct(sent + b), |b|)
    case Teed(inner, captured) => (Teed(Write(inner, b).0, captured + b), |b|)
  }

  /** A sequence of `Write` calls, in order. */
  function WriteAll(w: Writer, chunks: seq<Bytes>): (r: Writer)
    ensures Delivered(r) == Delivered(w) + Flatten(chunks)
    ensures r.Teed? <==> w.Teed?
    ensures w.Teed? ==> r.captured == w.captured + Flatten(chunks)
    decreases |chunks|
  {
    if chunks == [] then w else WriteAll(Write(w, chunks[0]).0, chunks[1..])
  }

  /** Wrapping a writer in a tee changes nothing the client receives, and the
   *  capture buffer ends up holding exactly what was written. */
  lemma TeeIsTransparent(w: Writer, chunks: seq<Bytes>)
    ensures Delivered(WriteAll(Teed(w, []), chunks)) == Delivered(WriteAll(w, chunks))
    ensures WriteAll(Teed(w, []), chunks).captured == Flatten(chunks)
  {
  }
}

=== FILE: zap_fields.dfy ===
/** zap's typed log fields and their translation into the generic document
 *  that is handed to the persistence store (`zapFieldsToMap`).
 */
module ZapFields {
  import opened Common

  /** `zapcore.FieldType`. `UnknownType` is the zero value; `TimeFullType`
   *  has no case of its own in the translation. */
  datatype FieldType =
    | UnknownType | ArrayMarshalerType | ObjectMarshalerType | BinaryType | BoolType
    | ByteStringType | Complex128Type | Complex64Type | DurationType | Float64Type
    | Float32Type | Int64Type | Int32Type | Int16Type | Int8Type | StringType | TimeType
    | Uint64Type | Uint32Type | Uint16Type | Uint8Type | UintptrType | ReflectType
    | NamespaceType | StringerType | ErrorType | SkipType | InlineMarshalerType | TimeFullType

  /** The dynamic value a field may carry in its `Interface` slot. */
  datatype Interface = NilInterface | ErrorValue(error: Error) | Reflected(repr: string)

  /** `zapcore.Field`: a key, a type tag and the three payload slots. */
  datatype Field = Field(key: string, fieldType: FieldType, integer: Int64, str: string, iface: Interface)

  /** A value of the persisted document. `Float(raw)` is `float64(raw)`,
   *  the conversion of the field's raw integer payload. */
  datatype DocValue = Text(text: string) | Integer(number: Int64) | Float(raw: Int64) | Boolean(flag: bool) | Any(value: Interface)

  type Document = map<string, DocValue>

  predicate IsIntegerType(t: FieldType)
  {
    t.Int64Type? || t.Int32Type? || t.Int16Type? || t.Int8Type?
    || t.Uint64Type? || t.Uint32Type? || t.Uint16Type? || t.Uint8Type?
  }

  predicate IsFloatType(t: FieldType)
  {
    t.Float64Type? || t.Float32Type?
  }

  /** The types with a case of their own in the translation; every other
   *  type falls to the default case. */
  predicate HasOwnCase(t: FieldType)
  {
    t.StringType? || IsIntegerType(t) || IsFloatType(t) || t.BoolType? || t.TimeType?
    || t.DurationType? || t.ReflectType?
  }

  // The zap constructors the middleware uses, as they fill the payload slots.

  function StringField(key: string, v: string): Field
  {
    Field(key, StringType, 0, v, NilInterface)
  }

  function Int64Field(key: string, v: Int64): Field
  {
    Field(key, Int64Type, v, "", NilInterface)
  }

  function BoolField(key: string, v: bool): Field
  {
    Field(key, BoolType, if v then 1 else 0, "", NilInterface)
  }

  function DurationField(key: string, nanos: Int64): Field
  {
    Field(key, DurationType, nanos, "", NilInterface)
  }

  function TimeField(key: string, unixNanos: Int64): Field
  {
    Field(key, TimeType, unixNanos, "", NilInterface)
  }

  /** `zap.Float64`: the payload is the IEEE 754 bit pattern, an input here. */
  function Float64Field(key: string, bits: Int64): Field
  {
    Field(key, Float64Type, bits, "", NilInterface)
  }

  function ReflectField(key: string, repr: string): Field
  {
    Field(key, ReflectType, 0, "", Reflected(repr))
  }

  /** `zap.Error`. */
  function ErrorField(e: Error): Field
  {
    Field("error", ErrorType, 0, "", ErrorValue(e))
  }

  /** One case of `zapFieldsToMap`'s switch: the document value of a field.
   *  Which payload slot is read depends on the type tag alone. */
  function Convert(f: Field, rfc3339: Int64 -> string): (v: DocValue)
    ensures v.Text? <==> f.fieldType.StringType? || f.fieldType.TimeType? || !HasOwnCase(f.fieldType)
    ensures v.Integer? <==> IsIntegerType(f.fieldType) || f.fieldType.DurationType?
    ensures v.Float? <==> IsFloatType(f.fieldType)
    ensures v.Boolean? <==> f.fieldType.BoolType?
    ensures v.Any? <==> f.fieldType.ReflectType?
    ensures v.Integer? ==> v.number == f.integer
    ensures v.Float? ==> v.raw == f.integer
    ensures v.Boolean? ==> (v.flag <==> f.integer != 0)
    ensures v.Any? ==> v.value == f.iface
    ensures v.Text? && !f.fieldType.TimeType? ==> v.text == f.str
    ensures f.fieldType.TimeType? ==> v == Text(rfc3339(f.integer))
  {
    match f.fieldType
    case StringType => Text(f.str)
    case Int64Type | Int32Type | Int16Type | Int8Type | Uint64Type | Uint32Type | Uint16Type | Uint8Type =>
      Integer(f.integer)
    case Float64Type | Float32Type => Float(f.integer)
    case BoolType => Boolean(f.integer != 0)
    case TimeType => Text(rfc3339(f.integer))
    case DurationType => Integer(f.integer)
    case ReflectType => Any(f.iface)
    case _ => Text(f.str)
  }

  /** Field `i` is the last one in `fs` with its key. */
  predicate LastWithKey(fs: seq<Field>, i: int)
    requires 0 <= i < |fs|
  {
    forall j :: i < j < |fs| ==> fs[j].key != fs[i].key
  }

  /** The keys of a field list. */
  function Keys(fs: seq<Field>): set<string>
  {
    set i | 0 <= i < |fs| :: fs[i].key
  }

  /** `zapFieldsToMap`: one entry per distinct key, holding the translation
   *  of the last field with that key (later fields overwrite earlier ones). */
  function FieldsToMap(fs: seq<Field>, rfc3339: Int64 -> string): (d: Document)
    ensures d.Keys == Keys(fs)
    ensures forall i :: 0 <= i < |fs| && LastWithKey(fs, i) ==> d[fs[i].key] == Convert(fs[i], rfc3339)
    decreases |fs|
  {
    if fs == [] then map[]
    else
      var init := fs[..|fs| - 1];
      var last := fs[|fs| - 1];
      assert fs == init + [last];
      SnocKeys(init, last);
      forall i | 0 <= i < |init| && LastWithKey(fs, i)
        ensures LastWithKey(init, i) && init[i].key != last.key
      {
        SnocLastWithKey(init, last, i);
      }
      FieldsToMap(init, rfc3339)[last.key := Convert(last, rfc3339)]
  }

  /** Appending a field adds its key. */
  lemma SnocKeys(init: seq<Field>, last: Field)
    ensures Keys(init + [last]) == Keys(init) + {last.key}
  {
    var fs := init + [last];
    forall k | k in Keys(fs) ensures k in Keys(init) + {last.key} {
      var i :| 0 <= i < |fs| && fs[i].key == k;
      if i < |init| { assert fs[i] == init[i]; }
    }
    forall k | k in Keys(init) ensures k in Keys(fs) {
      var i :| 0 <= i < |init| && init[i].key == k;
      assert fs[i] == init[i];
    }
    assert fs[|init|] == last;
  }

  /** The last field with its key in a longer list is the last with its key
   *  in the shorter one, and the appended field has another key. */
  lemma SnocLastWithKey(init: seq<Field>, last: Field, i: int)
    requires 0 <= i < |init|
    requires LastWithKey(init + [last], i)
    ensures LastWithKey(init, i) && init[i].key != last.key
  {
    var fs := init + [last];
    assert fs[|init|] == last;
    assert fs[i] == init[i];
    forall j | i < j < |init| ensures init[j].key != init[i].key {
      assert fs[j] == init[j];
    }
  }

  /** Keys that are pairwise distinct. */
  predicate DistinctKeys(fs: seq<Field>)
  {
    forall i, j :: 0 <= i < j < |fs| ==> fs[i].key != fs[j].key
  }

  /** With distinct keys no field is overwritten: each one is found under its
   *  own key. */
  lemma DistinctKeysAllKept(fs: seq<Field>, rfc3339: Int64 -> string)
    requires DistinctKeys(fs)
    ensures forall i :: 0 <= i < |fs| ==> fs[i].key in FieldsToMap(fs, rfc3339)
    ensures forall i :: 0 <= i < |fs| ==> FieldsToMap(fs, rfc3339)[fs[i].key] == Convert(fs[i], rfc3339)
  {
    forall i | 0 <= i < |fs| ensures LastWithKey(fs, i) { }
  }

  /** Each constructor's value comes back out of the translation unchanged:
   *  the document stores what the logging call was given. */
  lemma ConstructorsRoundTrip(key: string, s: string, n: Int64, b: bool, repr: string, rfc3339: Int64 -> string)
    ensures Convert(StringField(key, s), rfc3339) == Text(s)
    ensures Convert(Int64Field(key, n), rfc3339) == Integer(n)
    ensures Convert(BoolField(key, b), rfc3339) == Boolean(b)
    ensures Convert(DurationField(key, n), rfc3339) == Integer(n)
    ensures Convert(Float64Field(key, n), rfc3339) == Float(n)
    ensures Convert(TimeField(key, n), rfc3339) == Text(rfc3339(n))
    ensures Convert(ReflectField(key, repr), rfc3339) == Any(Reflected(repr))
  {
  }

  /** One field of every kind of the translation, as in the repository's
   *  all-types test: a string, two integer widths, a float (its bit pattern
   *  `bits`), a bool, a time and a duration of one second, a reflected
   *  value and an untyped field that falls to the default case. */
  function AllTypesFields(bits: Int64, reflected: string): seq<Field>
  {
    [ StringField("string", "value"), Int64Field("int", 7), Field("uint", Uint32Type, 8, "", NilInterface),
      Float64Field("float", bits), BoolField("bool", true), TimeField("time", 1_000_000_000),
      DurationField("duration", 1_000_000_000), ReflectField("reflect", reflected),
      Field("default", UnknownType, 0, "fallback", NilInterface) ]
  }

  /** The all-types test uses nine different keys. */
  lemma AllTypesDistinct(bits: Int64, reflected: string)
    ensures DistinctKeys(AllTypesFields(bits, reflected))
  {
  }

  /** Every field of the all-types list is found under its key with the
   *  value the test expects. */
  lemma CoversAllTypes(rfc3339: Int64 -> string, bits: Int64, reflected: string)
    ensures var d := FieldsToMap(AllTypesFields(bits, reflected), rfc3339);
      && "string" in d && d["string"] == Text("value")
      && "int" in d && d["int"] == Integer(7)
      && "uint" in d && d["uint"] == Integer(8)
      && "float" in d && d["float"] == Float(bits)
      && "bool" in d && d["bool"] == Boolean(true)
      && "time" in d && d["time"] == Text(rfc3339(1_000_000_000))
      && "duration" in d && d["duration"] == Integer(1_000_000_000)
      && "reflect" in d && d["reflect"] == Any(Reflected(reflected))
      && "default" in d && d["default"] == Text("fallback")
  {
    var fs := AllTypesFields(bits, reflected);
    AllTypesDistinct(bits, reflected);
    DistinctKeysAllKept(fs, rfc3339);
    KeptAt(fs, rfc3339, 0);
    KeptAt(fs, rfc3339, 1);
    KeptAt(fs, rfc3339, 2);
    KeptAt(fs, rfc3339, 3);
    KeptAt(fs, rfc3339, 4);
    KeptAt(fs, rfc3339, 5);
    KeptAt(fs, rfc3339, 6);
    KeptAt(fs, rfc3339, 7);
    KeptAt(fs, rfc3339, 8);
  }

  /** With distinct keys, field `i` is found under its key. */
  lemma KeptAt(fs: seq<Field>, rfc3339: Int64 -> string, i: nat)
    requires DistinctKeys(fs) && i < |fs|
    ensures fs[i].key in FieldsToMap(fs, rfc3339) && FieldsToMap(fs, rfc3339)[fs[i].key] == Convert(fs[i], rfc3339)
  {
    DistinctKeysAllKept(fs, rfc3339);
  }
}
